=== FILE: README.md ===
# Transmute event decoding, modelled in Dafny

This project models the pure decoding layer of the Transmute Framework event store. Truffle hands back an
event-store record as a list of loosely typed values: BigNumbers, address strings and bytes32 hex strings.
The layer turns that list into a plain JavaScript object of strings and numbers. It has these parts:

- **Schema registry.** Two ordered tables map the field names of an event (`EsEventSchema`, 10 fields)
  and of an event property (`EsEventPropertySchema`, 7 fields) to primitive-kind names. `TruffleEventSchema`
  selects one of the tables by event name.
- **Kind-directed conversion.** `getPropFromTruffleEventSchemaType` switches over the kind name.
  `Address`/`String` call `toString()`, `BigNumber`/`UInt` call `toNumber()`, and `Bytes32` calls `toAscii`.
  `toAscii` is web3's hex decoding followed by removing every U+0000. Any other kind throws.
- **Positional records.** `getEsEventFromEsEventValues` and `getEsEventPropertyFromEsEventPropertyValues`
  bind the i-th schema key to the i-th value.
- **Record decoding.** `getEsEventFromEsEventWithTruffleTypes` walks an object with `_.forIn` and converts
  every field by its schema kind. `getTransmuteEventPropertyFromEsEventProperty` builds the one-key
  object `{[prop.Name]: value}`.
- **Log decoding.** The transaction helper decodes the logs of a transaction receipt with its own,
  narrower switch (`getPropFromSchema`), one log at a time.

Files:

- `wrappers.dfy`: `Option` and `Result`.
- `js_values.dfy`: JavaScript values, with `Undefined` included. Objects are ordered key/value tables
  with distinct keys. The file also holds the `toString`/`toNumber` calls and the shared `_.forIn` fold
  (`ForIn`).
- `ascii.dfy`: the NUL strip of `toAscii`.
- `schemas.dfy`: the registry tables.
- `event_types.dfy`: the conversions of `EventTypes.ts`.
- `transactions.dfy`: the log decoding of the transaction helper.

Library code that the model cannot see is passed in as a `Runtime` value:
- `web3ToAscii`: web3's hex-to-text decoding. `None` means it throws.
- `numberText`: the text a number or BigNumber gives from `toString()`.

Every JavaScript `throw` is a `Result` error:
- `UnknownKind`: the switch's own `Error`.
- `ReadOfUndefined`: the TypeError from reading a property of `undefined`.
- `NotAFunction`: the TypeError from calling `toNumber` on a string or a plain number.
- `Web3Failed`: web3's decoding threw.

## Behaviours of the code worth knowing

- **NUL removal is global.** The regular expression at `EventTypes.ts:99` removes every NUL anywhere
  in the decoded text, not only trailing padding (`Ascii.StripNulInterior`).
- **There is no arity check.** Missing values read as `undefined` and extra values are ignored. A
  too-short event list fails during decoding, at its first missing field whose kind rejects
  `undefined`. The missing `PropertyCount` (a BigNumber) guarantees the failure
  (`EventTypes.DecodePositionalEsEvent`).
- **An unknown event type leaves the schema `undefined`.** Decoding throws a TypeError at the first
  field, and an empty record gives `{}`.
- **Property `Type` field.** `getTransmuteEventPropertyFromEsEventProperty` reads `prop.Type`. The
  schema's doc comment (`EventTypes.ts:116`) documents a `Type` property, which is likely where the name
  comes from. But the property schema object itself and both property interfaces name the field
  `ValueType`. So on every property record the module builds, raw or decoded, the function returns
  `{}` (`EventTypes.TransmuteEventPropertyOfPropertyRecords`).

## Model

| member | source | states |
|---|---|---|
| `Ascii.StripNul` | src/EventStore/EventTypes/EventTypes.ts:99 | the stripped text contains no NUL, is never longer than the input, and holds every other character exactly as often as the input does |
| `Ascii.StripNulKeepsOrder` | src/EventStore/EventTypes/EventTypes.ts:99 | the stripped text is a subsequence of the input: kept characters stay in their original order |
| `Ascii.StripNulOfNulFree` | src/EventStore/EventTypes/EventTypes.ts:99 | text without NUL is returned unchanged |
| `Ascii.StripNulIdempotent` | src/EventStore/EventTypes/EventTypes.ts:99 | stripping twice equals stripping once |
| `Ascii.StripNulAppend` | src/EventStore/EventTypes/EventTypes.ts:99 | the global replace works piecewise: strip(a + b) = strip(a) + strip(b) |
| `Ascii.StripNulInterior` | src/EventStore/EventTypes/EventTypes.ts:99 | a NUL in the middle of the text is removed, not only trailing padding |
| `Ascii.ToAscii` | src/EventStore/EventTypes/EventTypes.ts:98-100 | succeeds exactly when web3's decoding does; the result has no NUL, is no longer than the decoded text, keeps its other characters and their order; a failure is always web3's error |
| `Schemas.TruffleEventSchemaEntries` | src/EventStore/EventTypes/EventTypes.ts:160-163 | `EsEvent` selects the event table, `EsEventProperty` the property table, and any other name selects nothing |
| `Schemas.SchemaKeyOrder` | src/EventStore/EventTypes/EventTypes.ts:121-153 | the two tables list exactly the 10 event and 7 property field names, in declaration order |
| `EventTypes.RegistryKindsHandled` | src/EventStore/EventTypes/EventTypes.ts:140-153 | every kind in both tables is one the conversion switch handles |
| `EventTypes.Coerce` | src/EventStore/EventTypes/EventTypes.ts:171-180 | succeeds exactly when the kind is one of Address, String, Bytes32, BigNumber, UInt and the value supports that kind's call. An undefined or other kind throws the unknown-kind error whatever the value. A success never leaves a BigNumber or undefined behind. A BigNumber under BigNumber/UInt becomes its number. Under Address/String a string is kept, and a number or BigNumber becomes its `toString()` text. A handled kind with an unusable value throws that call's own error: reading `toString` of undefined, reading `toNumber` of undefined, `toNumber` not being a function, or web3's error for Bytes32 |
| `EventTypes.CoerceAliases` | src/EventStore/EventTypes/EventTypes.ts:173-177 | BigNumber and UInt convert alike, Address and String convert alike, and Bytes32 equals `toAscii` of the value |
| `EventTypes.FromPositional` | src/EventStore/EventTypes/EventTypes.ts:192-206 | the record's keys are the schema's keys in order, and looking up the i-th key gives the i-th value, or undefined past the end of the list |
| `EventTypes.PositionalIgnoresExtra` | src/EventStore/EventTypes/EventTypes.ts:192-198 | values past the schema's length do not change the record |
| `EventTypes.PositionalValuesRoundTrip` | src/EventStore/EventTypes/EventTypes.ts:192-206 | for a list as long as the schema, reading the record's values back in key order gives the list |
| `EventTypes.PositionalObjectRoundTrip` | src/EventStore/EventTypes/EventTypes.ts:192-206 | an object laid out like the schema is rebuilt exactly from its own values |
| `EventTypes.EsEventFromValues` | src/EventStore/EventTypes/EventTypes.ts:192-198 | the event record has the 10 event field names in declaration order, the i-th bound to the i-th value |
| `EventTypes.EsEventPropertyFromValues` | src/EventStore/EventTypes/EventTypes.ts:200-206 | the property record has the 7 property field names in declaration order, the i-th bound to the i-th value |
| `EventTypes.EsEventWithTruffleTypes` | src/EventStore/EventTypes/EventTypes.ts:208-218 | on success the output has the input's keys in the input's order, and each value is the conversion of the input value under the schema's kind for that key. Under a registered event type it succeeds exactly when every field's kind exists and accepts its value, and it fails when any key has no handled kind. Under an unregistered type it throws at the first field, and an empty record gives `{}`. A failure's error is that of the first field whose conversion throws |
| `EventTypes.DecodePositionalEsEvent` | src/EventStore/EventTypes/EventTypes.ts:192-218 | decoding the positional event record succeeds exactly when each of the 10 values is acceptable under its field's kind; a list shorter than 10 always fails; on success field i holds the conversion of value i |
| `EventTypes.DecodePositionalEsEventProperty` | src/EventStore/EventTypes/EventTypes.ts:200-218 | decoding the positional property record succeeds exactly when each of the 7 values is acceptable under its field's kind; a list shorter than 6 always fails (the missing `UIntValue` is a BigNumber), and one shorter than 7 fails whenever web3's decoding throws on undefined; on success field i holds the conversion of value i |
| `EventTypes.TransmuteEventProperty` | src/EventStore/EventTypes/EventTypes.ts:182-190 | when `prop.Type` is Bytes32, BigNumber or Address the only key is `prop.Name` (as a property key), otherwise the result is `{}`. BigNumber takes `UIntValue` as is, Address takes `AddressValue`, and Bytes32 takes `toAscii(prop.Bytes32Value)`, which is NUL-free. It throws exactly when the type is Bytes32 and web3 cannot decode `Bytes32Value` |
| `EventTypes.TransmuteEventPropertyOfPropertyRecords` | src/EventStore/EventTypes/EventTypes.ts:182-190 | on any positional property record, and on its decoded form, the result is `{}`, because such records have no `Type` key |
| `JsValues.ForIn` | src/EventStore/EventTypes/EventTypes.ts:209-217 | the `_.forIn`/`_.extend` loop succeeds exactly when every field's step succeeds; the output keeps keys and order with each value the step's result; a failure is the error of the first failing field |
| `Transactions.CoerceLog` | test/EventStore/SolidityEvent/Transactions/index.js:8-15 | succeeds exactly when the kind is String, Address or BigNumber and the value supports the call (a BigNumber for BigNumber, anything defined otherwise); every other kind, undefined included, throws the unknown-kind error; a BigNumber under BigNumber becomes its number, and under String/Address a string is kept while a number or BigNumber becomes its `toString()` text; String/Address on undefined throws the `toString` read error, and BigNumber on anything but a BigNumber throws the `toNumber` read error (undefined) or not-a-function error |
| `Transactions.CoerceLogCases` | test/EventStore/SolidityEvent/Transactions/index.js:8-15 | String and Address give identical results; Bytes32 and UInt always throw |
| `Transactions.CoerceLogAgrees` | test/EventStore/SolidityEvent/Transactions/index.js:8-15 | wherever the narrow switch succeeds, the `EventTypes` switch gives the same value |
| `Transactions.EventFromLog` | test/EventStore/SolidityEvent/Transactions/index.js:17-27 | under a registered event it succeeds exactly when every argument converts under the narrow switch; on success the output has exactly the keys of `log.args` in order, each converted by the narrow switch under the schema `log.event` selects; it fails if any argument's kind is outside String, Address, BigNumber; an unregistered event throws at its first argument; a failure's error is that of the first argument whose conversion throws |
| `Transactions.EventFromLogAgrees` | test/EventStore/SolidityEvent/Transactions/index.js:17-27 | a log the narrow decoder accepts decodes to the same object under the `EventTypes` switch |
| `Transactions.EventFromLogRejectsBytes32` | test/EventStore/SolidityEvent/Transactions/index.js:17-27 | against the `EventTypes` registry, an `EsEvent` log with a `Type` argument (a Bytes32 field) cannot be decoded |
| `Transactions.EventsFromTransaction` | test/EventStore/SolidityEvent/Transactions/index.js:29-33 | succeeds exactly when every log decodes; on success output i is the decoding of log i and the lengths agree; on failure the error is that of the first failing log |

## Left out

- web3's hex-to-text decoding is a parameter (`Runtime.web3ToAscii`). Only the NUL removal that follows it is modelled.
- `Runtime.web3ToAscii` is left unconstrained on values that are not hex strings, `undefined` included. web3 throws on `undefined`, but the model does not assume it. So `EventTypes.DecodePositionalEsEventProperty` promises failure for a six-value list only when that runtime throws on `undefined`.
- The rendering of numbers and BigNumbers as text (`toString()`, and the key a number becomes) is a parameter (`Runtime.numberText`). This includes the switch to exponential notation for large values.
- `BigNumber.toNumber` returns the exact natural number. The loss of precision in a JavaScript number above 2^53 is not modelled, and neither are negative or fractional numbers.
- Only the error kind of a thrown error is kept, not its message text.
- JavaScript objects have no prototype chain here. A key such as `toString` or `constructor` is looked up only among an object's own keys.
- Integer-like keys are visited in insertion order like all other keys. JavaScript visits them first, in ascending order. The schemas and event arguments use no such keys.
- The schema registry that the transaction helper reads comes from a module that is not part of this model. It is taken as a parameter.
- The typed interfaces (`IEsEvent`, `ITransmuteEvent` and the rest) declare shapes only. They shaped the datatypes and carry no behaviour.
- The encoding direction (typed value to wire value) and its round trip are not in the modelled code, which only decodes.
- Contract deployment, provider selection, the store-factory wrappers and the persistence tests are deployment or network plumbing, or only check that functions exist.
- The event store, access control and factory contracts are not part of this model. Their invariants are not stated here.

=== FILE: ascii.dfy ===
/** `EventTypes.toAscii`: web3's hex decoding followed by removing every
    U+0000 character. The regular expression is global, so NULs anywhere in
    the decoded text go, not only the zero padding at the end of a bytes32. */
module Ascii {
  import opened Wrappers
  import opened JsValues

  const NUL: char := '\0'

  /** `text.replace(/\u0000/g, '')`. */
  function StripNul(s: string): (r: string)
    ensures NUL !in r
    ensures |r| <= |s|
    ensures multiset(r) == multiset(s)[NUL := 0]
  {
    if s == [] then []
    else if s[0] == NUL then
      assert s == [s[0]] + s[1..];
      StripNul(s[1..])
    else
      assert s == [s[0]] + s[1..];
      [s[0]] + StripNul(s[1..])
  }

  /** `r` can be obtained from `s` by deleting characters: what is kept stays in order. */
  predicate IsSubsequence(r: string, s: string)
    decreases |s|
  {
    if s == [] then r == []
    else (r != [] && r[0] == s[0] && IsSubsequence(r[1..], s[1..])) || IsSubsequence(r, s[1..])
  }

  /** The characters kept are kept in their original order. */
  lemma {:induction false} StripNulKeepsOrder(s: string)
    ensures IsSubsequence(StripNul(s), s)
  {
    if s != [] {
      StripNulKeepsOrder(s[1..]);
    }
  }

  /** Text without NUL comes back unchanged. */
  lemma {:induction false} StripNulOfNulFree(s: string)
    requires NUL !in s
    ensures StripNul(s) == s
  {
    if s != [] {
      assert s[0] != NUL;
      StripNulOfNulFree(s[1..]);
    }
  }

  /** Stripping twice is stripping once. */
  lemma StripNulIdempotent(s: string)
    ensures StripNul(StripNul(s)) == StripNul(s)
  {
    StripNulOfNulFree(StripNul(s));
  }

  /** Stripping works piecewise: it removes NULs wherever they sit. */
  lemma {:induction false} StripNulAppend(a: string, b: string)
    ensures StripNul(a + b) == StripNul(a) + StripNul(b)
  {
    if a != [] {
      assert (a + b)[0] == a[0];
      assert (a + b)[1..] == a[1..] + b;
      StripNulAppend(a[1..], b);
      if a[0] == NUL {
        assert StripNul(a + b) == StripNul(a[1..] + b);
      } else {
        assert StripNul(a + b) == [a[0]] + StripNul(a[1..] + b);
      }
    } else {
      assert a + b == b;
    }
  }

  /** A NUL in the middle of the text is removed just like trailing padding. */
  lemma StripNulInterior(a: string, b: string)
    ensures StripNul(a + [NUL] + b) == StripNul(a) + StripNul(b)
  {
    StripNulAppend(a + [NUL], b);
    StripNulAppend(a, [NUL]);
  }

  /** `toAscii(value)`: throws when web3's decoding throws, otherwise returns
      the decoded text without its NULs. */
  function ToAscii(rt: Runtime, v: Value): (r: Result<string, Error>)
    ensures r.Ok? <==> rt.web3ToAscii(v).Some?
    ensures r.Err? ==> r.error == Web3Failed
    ensures r.Ok? ==> NUL !in r.value
    ensures r.Ok? ==> |r.value| <= |rt.web3ToAscii(v).value|
    ensures r.Ok? ==> multiset(r.value) == multiset(rt.web3ToAscii(v).value)[NUL := 0]
    ensures r.Ok? ==> IsSubsequence(r.value, rt.web3ToAscii(v).value)
  {
    match rt.web3ToAscii(v)
    case None => Err(Web3Failed)
    case Some(text) =>
      StripNulKeepsOrder(text);
      Ok(StripNul(text))
  }
}

=== FILE: event_types.dfy ===
/** The conversions of `EventTypes`: from the loosely typed values truffle
    returns for the event store's records to plain strings and numbers,
    directed by the schema registry. */
module EventTypes {
  import opened Wrappers
  import opened JsValues
  import opened Ascii
  import opened Schemas

  /* ------------------------------------------------------ kind dispatch */

  /** The kinds `getPropFromTruffleEventSchemaType` has a case for. */
  const TruffleKinds: set<string> := {Address, String, Bytes32, BigNumber, UInt}

  /** When converting `v` as `kind` goes through: the kind is one of the five
      and the value has what that kind's conversion calls on it. */
  predicate Accepts(rt: Runtime, kind: string, v: Value)
  {
    || ((kind == Address || kind == String) && v != Undefined)
    || (kind == Bytes32 && rt.web3ToAscii(v).Some?)
    || ((kind == BigNumber || kind == UInt) && v.BigNum?)
  }

  /** `getPropFromTruffleEventSchemaType(kind, value)`; `None` is an undefined kind. */
  function Coerce(rt: Runtime, kind: Option<string>, v: Value): (r: Result<Value, Error>)
    ensures r.Ok? <==> kind.Some? && Accepts(rt, kind.value, v)
    ensures r.Ok? ==> kind.value in TruffleKinds
    ensures kind.None? || kind.value !in TruffleKinds ==> r == Err(UnknownKind(kind))
    ensures r.Ok? ==> r.value.Str? || r.value.Num?
    ensures (kind == Some(BigNumber) || kind == Some(UInt)) && v.BigNum? ==> r == Ok(Num(v.n))
    ensures (kind == Some(Address) || kind == Some(String)) && v.Str? ==> r == Ok(v)
    ensures ((kind == Some(Address) || kind == Some(String)) && (v.Num? || v.BigNum?))
              ==> r == Ok(Str(rt.numberText(v.n)))
    ensures ((kind == Some(Address) || kind == Some(String)) && v == Undefined)
              ==> r == Err(ReadOfUndefined("toString"))
    ensures ((kind == Some(BigNumber) || kind == Some(UInt)) && !v.BigNum?)
              ==> r == Err(if v == Undefined then ReadOfUndefined("toNumber") else NotAFunction("toNumber"))
    ensures kind == Some(Bytes32) && r.Err? ==> r.error == Web3Failed
  {
    match kind
    case None => Err(UnknownKind(kind))
    case Some(k) =>
      if k == Address then CallToString(rt, v)
      else if k == String then CallToString(rt, v)
      else if k == Bytes32 then
        var text :- ToAscii(rt, v);
        Ok(Str(text))
      else if k == BigNumber then CallToNumber(v)
      else if k == UInt then CallToNumber(v)
      else Err(UnknownKind(kind))
  }

  /** The aliases of the switch: BigNumber and UInt convert alike, Address and
      String convert alike, and Bytes32 is `toAscii`. */
  lemma CoerceAliases(rt: Runtime, v: Value)
    ensures Coerce(rt, Some(UInt), v) == Coerce(rt, Some(BigNumber), v)
    ensures Coerce(rt, Some(Address), v) == Coerce(rt, Some(String), v)
    ensures Coerce(rt, Some(Bytes32), v)
            == match ToAscii(rt, v) case Ok(text) => Ok(Str(text)) case Err(e) => Err(e)
  {
  }

  /** Every kind the registry's tables mention is one the switch handles. */
  lemma RegistryKindsHandled()
    ensures forall i :: 0 <= i < |EsEventSchema| ==> EsEventSchema[i].1 in TruffleKinds
    ensures forall i :: 0 <= i < |EsEventPropertySchema| ==> EsEventPropertySchema[i].1 in TruffleKinds
  {
  }

  /* --------------------------------------------------- positional records */

  /** `values[i]`: past the end a JavaScript array reads as undefined. */
  function At(values: seq<Value>, i: nat): Value
  {
    if i < |values| then values[i] else Undefined
  }

  /** The values of an object in key order. */
  function FieldValues(o: Object): seq<Value>
  {
    seq(|o|, i requires 0 <= i < |o| => o[i].1)
  }

  /** `_.keys(schema).map((k, i) => evt[k] = values[i])`: the i-th schema key
      is bound to the i-th value. Nothing checks the number of values. */
  function FromPositional(schema: Schema, values: seq<Value>): (r: Object)
    ensures Keys(r) == Keys(schema)
    ensures forall i :: 0 <= i < |schema| ==> Get(r, schema[i].0) == At(values, i)
  {
    var r := seq(|schema|, i requires 0 <= i < |schema| => (schema[i].0, At(values, i)));
    assert forall i :: 0 <= i < |schema| ==> r[i].0 == schema[i].0;
    LookupAll(r);
    r
  }

  /** Values past the schema's length are ignored. */
  lemma PositionalIgnoresExtra(schema: Schema, values: seq<Value>, extra: seq<Value>)
    requires |values| >= |schema|
    ensures FromPositional(schema, values + extra) == FromPositional(schema, values)
  {
    var a := FromPositional(schema, values + extra);
    var b := FromPositional(schema, values);
    assert forall i :: 0 <= i < |schema| ==> a[i] == b[i];
  }

  /** Reading the record's values back in key order gives the positional values. */
  lemma PositionalValuesRoundTrip(schema: Schema, values: seq<Value>)
    requires |values| == |schema|
    ensures FieldValues(FromPositional(schema, values)) == values
  {
  }

  /** Any object laid out like the schema is rebuilt from its own values. */
  lemma PositionalObjectRoundTrip(schema: Schema, o: Object)
    requires Keys(o) == Keys(schema)
    ensures FromPositional(schema, FieldValues(o)) == o
  {
    var r := FromPositional(schema, FieldValues(o));
    assert forall i :: 0 <= i < |o| ==> Keys(o)[i] == o[i].0 && Keys(schema)[i] == schema[i].0;
    assert forall i :: 0 <= i < |o| ==> r[i] == o[i];
  }

  /** `getEsEventFromEsEventValues(values)`. */
  function EsEventFromValues(values: seq<Value>): (r: Object)
    ensures Keys(r) == ["Id", "Type", "Version", "ValueType", "AddressValue",
                        "UIntValue", "Bytes32Value", "TxOrigin", "Created", "PropertyCount"]
    ensures forall i :: 0 <= i < 10 ==> Get(r, Keys(r)[i]) == At(values, i)
  {
    SchemaKeyOrder();
    FromPositional(EsEventSchema, values)
  }

  /** `getEsEventPropertyFromEsEventPropertyValues(values)`. */
  function EsEventPropertyFromValues(values: seq<Value>): (r: Object)
    ensures Keys(r) == ["EventIndex", "EventPropertyIndex", "Name", "ValueType",
                        "AddressValue", "UIntValue", "Bytes32Value"]
    ensures forall i :: 0 <= i < 7 ==> Get(r, Keys(r)[i]) == At(values, i)
  {
    SchemaKeyOrder();
    FromPositional(EsEventPropertySchema, values)
  }

  /* ------------------------------------------------------ record decoding */

  /** The switch of `getPropFromTruffleEventSchemaType` as a field conversion. */
  function TruffleCoercion(rt: Runtime): Coercion
  {
    (kind, v) => Coerce(rt, kind, v)
  }

  /** `getEsEventFromEsEventWithTruffleTypes(eventType, solEvent)`: every
      field of `solEvent` converted by the kind the selected schema gives it. */
  function EsEventWithTruffleTypes(rt: Runtime, eventType: string, solEvent: Object)
    : (r: Result<Object, Error>)
    ensures r.Ok? ==> Keys(r.value) == Keys(solEvent)
    ensures r.Err? ==> FirstFailure(TruffleCoercion(rt), SchemaFor(TruffleEventSchema, eventType), solEvent, r.error)
    ensures var schema := SchemaFor(TruffleEventSchema, eventType);
            schema.Some? && r.Ok? ==>
              forall i :: 0 <= i < |solEvent| ==>
                Coerce(rt, Lookup(schema.value, solEvent[i].0), solEvent[i].1) == Ok(r.value[i].1)
    ensures var schema := SchemaFor(TruffleEventSchema, eventType);
            schema.Some? ==>
              (r.Ok? <==> forall i :: 0 <= i < |solEvent| ==>
                            Lookup(schema.value, solEvent[i].0).Some?
                            && Accepts(rt, Lookup(schema.value, solEvent[i].0).value, solEvent[i].1))
    // a corollary of the clause above, stated in the terms of the switch's default branch
    ensures var schema := SchemaFor(TruffleEventSchema, eventType);
            (schema.Some? && exists i :: 0 <= i < |solEvent|
                                        && (Lookup(schema.value, solEvent[i].0).None?
                                            || Lookup(schema.value, solEvent[i].0).value !in TruffleKinds))
              ==> r.Err?
    ensures eventType != EsEvent && eventType != EsEventProperty ==>
              r == if solEvent == [] then Ok([]) else Err(ReadOfUndefined(solEvent[0].0))
  {
    TruffleEventSchemaEntries(eventType);
    var schema := SchemaFor(TruffleEventSchema, eventType);
    assert schema.None? && solEvent != [] ==>
             Step(TruffleCoercion(rt), schema, solEvent[0]) == Err(ReadOfUndefined(solEvent[0].0));
    ForIn(TruffleCoercion(rt), schema, solEvent)
  }

  /* ------------------------------------------------ positional then typed */

  /** Decoding a positional event: it succeeds exactly when each of the ten
      values is acceptable under its field's kind, so a list shorter than the
      schema fails (the missing `PropertyCount` reads as undefined). */
  lemma DecodePositionalEsEvent(rt: Runtime, values: seq<Value>)
    ensures var r := EsEventWithTruffleTypes(rt, EsEvent, EsEventFromValues(values));
            && (r.Ok? <==> forall i :: 0 <= i < 10 ==> Accepts(rt, EsEventSchema[i].1, At(values, i)))
            && (|values| < 10 ==> r.Err?)
            && (r.Ok? ==> forall i :: 0 <= i < 10 ==>
                  r.value[i].0 == EsEventSchema[i].0
                  && Coerce(rt, Some(EsEventSchema[i].1), At(values, i)) == Ok(r.value[i].1))
  {
    TruffleEventSchemaEntries(EsEvent);
    var o := EsEventFromValues(values);
    assert forall i :: 0 <= i < 10 ==> o[i] == (EsEventSchema[i].0, At(values, i));
    LookupAll(EsEventSchema);
    assert EsEventSchema[9].1 == BigNumber;
    assert |values| < 10 ==> At(values, 9) == Undefined;
  }

  /** The same for a positional event property over its seven fields. A list
      shorter than six fails on its missing `UIntValue` (a BigNumber); one of
      exactly six fails on its missing `Bytes32Value` only when web3's decoding
      throws on undefined. */
  lemma DecodePositionalEsEventProperty(rt: Runtime, values: seq<Value>)
    ensures var r := EsEventWithTruffleTypes(rt, EsEventProperty, EsEventPropertyFromValues(values));
            && (r.Ok? <==> forall i :: 0 <= i < 7 ==> Accepts(rt, EsEventPropertySchema[i].1, At(values, i)))
            && (|values| < 6 ==> r.Err?)
            && (|values| < 7 && rt.web3ToAscii(Undefined).None? ==> r.Err?)
            && (r.Ok? ==> forall i :: 0 <= i < 7 ==>
                  r.value[i].0 == EsEventPropertySchema[i].0
                  && Coerce(rt, Some(EsEventPropertySchema[i].1), At(values, i)) == Ok(r.value[i].1))
  {
    TruffleEventSchemaEntries(EsEventProperty);
    var o := EsEventPropertyFromValues(values);
    assert forall i :: 0 <= i < 7 ==> o[i] == (EsEventPropertySchema[i].0, At(values, i));
    LookupAll(EsEventPropertySchema);
    assert EsEventPropertySchema[5].1 == BigNumber && EsEventPropertySchema[6].1 == Bytes32;
    assert |values| < 6 ==> At(values, 5) == Undefined;
    assert |values| < 7 ==> At(values, 6) == Undefined;
  }

  /* ------------------------------------------------ transmute properties */

  /** The `Type` values `getTransmuteEventPropertyFromEsEventProperty` has a case for. */
  const PropertyTypes: set<Value> := {Str(Bytes32), Str(BigNumber), Str(Address)}

  /** `getTransmuteEventPropertyFromEsEventProperty(prop)`: a one-key object
      `{[prop.Name]: value}` whose value is the slot `prop.Type` names, or
      `{}` when `prop.Type` is none of the three. */
  function TransmuteEventProperty(rt: Runtime, prop: Object): (r: Result<Object, Error>)
    ensures r.Err? <==> Get(prop, "Type") == Str(Bytes32) && rt.web3ToAscii(Get(prop, "Bytes32Value")).None?
    ensures r.Ok? ==> Keys(r.value) == if Get(prop, "Type") in PropertyTypes
                                      then [PropertyKey(rt, Get(prop, "Name"))] else []
    ensures r.Ok? && Get(prop, "Type") == Str(BigNumber) ==> r.value[0].1 == Get(prop, "UIntValue")
    ensures r.Ok? && Get(prop, "Type") == Str(Address) ==> r.value[0].1 == Get(prop, "AddressValue")
    ensures r.Ok? && Get(prop, "Type") == Str(Bytes32) ==>
              r.value[0].1 == Str(ToAscii(rt, Get(prop, "Bytes32Value")).value)
              && NUL !in r.value[0].1.s
  {
    var name := PropertyKey(rt, Get(prop, "Name"));
    var t := Get(prop, "Type");
    if t == Str(Bytes32) then
      var text :- ToAscii(rt, Get(prop, "Bytes32Value"));
      Ok([(name, Str(text))])
    else if t == Str(BigNumber) then
      Ok([(name, Get(prop, "UIntValue"))])
    else if t == Str(Address) then
      Ok([(name, Get(prop, "AddressValue"))])
    else
      Ok([])
  }

  /** The property records this module builds name their type field
      `ValueType`, not `Type`, so on any of them the conversion yields `{}`:
      raw positional records and decoded ones alike. */
  lemma TransmuteEventPropertyOfPropertyRecords(rt: Runtime, values: seq<Value>)
    ensures TransmuteEventProperty(rt, EsEventPropertyFromValues(values)) == Ok([])
    ensures var d := EsEventWithTruffleTypes(rt, EsEventProperty, EsEventPropertyFromValues(values));
            d.Ok? ==> TransmuteEventProperty(rt, d.value) == Ok([])
  {
    var raw := EsEventPropertyFromValues(values);
    assert "Type" !in Keys(raw);
  }
}

=== FILE: js_values.dfy ===
/** JavaScript values and objects as the decoding layer meets them.

    An object is an ordered table of (key, value) pairs with distinct keys:
    the order is the insertion order that `_.keys` and `_.forIn` walk. */
module JsValues {
  import opened Wrappers

  /** A wire or decoded value. `BigNum` is the BigNumber wrapper truffle hands
      back for uint fields; `Num` is a plain JavaScript number. Only the
      non-negative integers the event store produces are modelled. */
  datatype Value = Undefined | Num(n: nat) | BigNum(n: nat) | Str(s: string)

  /** What the decoding functions throw. */
  datatype Error =
    | UnknownKind(kind: Option<string>)  // the Error a kind switch throws in its default branch
    | ReadOfUndefined(name: string)      // TypeError: reading property `name` of undefined
    | NotAFunction(name: string)         // TypeError: calling a method the value does not have
    | Web3Failed                         // web3.toAscii threw

  /** The calls into libraries whose code is not part of this model.
      `numberText` is the text a number or BigNumber shows from `toString()`
      (and so the key it becomes when used as a property name);
      `web3ToAscii` is web3's hex-to-characters decoding, `None` when it throws. */
  datatype Runtime = Runtime(numberText: nat -> string, web3ToAscii: Value -> Option<string>)

  /* ---------------------------------------------------------------- tables */

  function Keys<V>(t: seq<(string, V)>): seq<string>
  {
    seq(|t|, i requires 0 <= i < |t| => t[i].0)
  }

  predicate DistinctKeys<V>(t: seq<(string, V)>)
  {
    forall i, j :: 0 <= i < j < |t| ==> t[i].0 != t[j].0
  }

  /** A JavaScript object with its own enumerable keys in insertion order. */
  type Object = o: seq<(string, Value)> | DistinctKeys(o) witness []

  /** An object mapping field names to primitive-kind names. */
  type Schema = s: seq<(string, string)> | DistinctKeys(s) witness []

  /** The value stored under `k`, if any. */
  function Lookup<V>(t: seq<(string, V)>, k: string): (r: Option<V>)
    ensures r.None? <==> k !in Keys(t)
    ensures r.Some? ==> exists i :: 0 <= i < |t| && t[i] == (k, r.value)
  {
    if t == [] then None
    else if t[0].0 == k then
      assert Keys(t)[0] == k;
      Some(t[0].1)
    else
      assert Keys(t) == [t[0].0] + Keys(t[1..]);
      var r := Lookup(t[1..], k);
      assert r.Some? ==> exists i :: 0 <= i < |t[1..]| && t[1..][i] == (k, r.value);
      r
  }

  /** With distinct keys, the value at position i is what looking up its key finds. */
  lemma {:induction false} LookupAt<V>(t: seq<(string, V)>, i: nat)
    requires DistinctKeys(t)
    requires i < |t|
    ensures Lookup(t, t[i].0) == Some(t[i].1)
  {
    if i > 0 {
      LookupAt(t[1..], i - 1);
    }
  }

  lemma LookupAll<V>(t: seq<(string, V)>)
    requires DistinctKeys(t)
    ensures forall i :: 0 <= i < |t| ==> Lookup(t, t[i].0) == Some(t[i].1)
  {
    forall i | 0 <= i < |t|
      ensures Lookup(t, t[i].0) == Some(t[i].1)
    {
      LookupAt(t, i);
    }
  }

  /** JavaScript `o[k]`: a missing key reads as undefined. */
  function Get(o: Object, k: string): Value
  {
    match Lookup(o, k)
    case None => Undefined
    case Some(v) => v
  }

  /* ------------------------------------------------------- method calls */

  /** `value.toString()`. */
  function CallToString(rt: Runtime, v: Value): (r: Result<Value, Error>)
    ensures r.Ok? <==> v != Undefined
    ensures r.Ok? ==> r.value.Str?
    ensures v.Str? ==> r == Ok(v)
  {
    match v
    case Undefined => Err(ReadOfUndefined("toString"))
    case Num(n) => Ok(Str(rt.numberText(n)))
    case BigNum(n) => Ok(Str(rt.numberText(n)))
    case Str(_) => Ok(v)
  }

  /** `value.toNumber()`: only a BigNumber has that method. The float
      precision a JavaScript number loses above 2^53 is not modelled. */
  function CallToNumber(v: Value): (r: Result<Value, Error>)
    ensures r.Ok? <==> v.BigNum?
    ensures r.Ok? ==> r.value == Num(v.n)
  {
    match v
    case Undefined => Err(ReadOfUndefined("toNumber"))
    case BigNum(n) => Ok(Num(n))
    case _ => Err(NotAFunction("toNumber"))
  }

  /** The key a value becomes when it is used as a property name. */
  function PropertyKey(rt: Runtime, v: Value): string
  {
    match v
    case Undefined => "undefined"
    case Num(n) => rt.numberText(n)
    case BigNum(n) => rt.numberText(n)
    case Str(s) => s
  }

  /* --------------------------------------------- decoding through a schema */

  /** A kind-directed conversion: (schema kind, raw value) to decoded value. */
  type Coercion = (Option<string>, Value) -> Result<Value, Error>

  /** `schema[key]`, which throws when the schema itself is undefined. */
  function KindOf(schema: Option<Schema>, key: string): Result<Option<string>, Error>
  {
    match schema
    case None => Err(ReadOfUndefined(key))
    case Some(s) => Ok(Lookup(s, key))
  }

  /** What the loop body does with one field: look its kind up, convert. */
  function Step(f: Coercion, schema: Option<Schema>, field: (string, Value)): Result<Value, Error>
  {
    var kind :- KindOf(schema, field.0);
    f(kind, field.1)
  }

  /** `r` is `o` with every field converted by `Step`, keys and order kept. */
  predicate Fieldwise(f: Coercion, schema: Option<Schema>, o: seq<(string, Value)>, r: seq<(string, Value)>)
  {
    && |r| == |o|
    && forall i :: 0 <= i < |o| ==> r[i].0 == o[i].0 && Step(f, schema, o[i]) == Ok(r[i].1)
  }

  /** `e` is what the first failing field's `Step` throws. */
  predicate FirstFailure(f: Coercion, schema: Option<Schema>, o: seq<(string, Value)>, e: Error)
  {
    exists i :: 0 <= i < |o| && Step(f, schema, o[i]) == Err(e)
                && forall j :: 0 <= j < i ==> Step(f, schema, o[j]).Ok?
  }

  /** The loop state of `_.forIn(o, (value, key) => _.extend(acc, {[key]: ...}))`
      with `acc` the object built so far and `rest` the fields still to visit.
      `_.forIn` visits each key of an object once, so every key it extends
      `acc` with is new and `_.extend` appends it. */
  function ExtendEach(f: Coercion, schema: Option<Schema>, acc: Object, rest: seq<(string, Value)>)
    : Result<Object, Error>
    requires DistinctKeys(acc + rest)
    decreases |rest|
  {
    if rest == [] then
      Ok(acc)
    else
      var p :- Step(f, schema, rest[0]);
      ExtendFacts(acc, rest, p);
      ExtendEach(f, schema, acc + [(rest[0].0, p)], rest[1..])
  }

  /** Appending the next visited field keeps the keys of acc + rest distinct. */
  lemma ExtendFacts(acc: Object, rest: seq<(string, Value)>, p: Value)
    requires rest != [] && DistinctKeys(acc + rest)
    ensures DistinctKeys(acc + [(rest[0].0, p)])
    ensures DistinctKeys(acc + [(rest[0].0, p)] + rest[1..])
  {
    var acc' := acc + [(rest[0].0, p)];
    assert forall j :: 0 <= j < |acc + rest| ==> (acc' + rest[1..])[j].0 == (acc + rest)[j].0;
    assert forall j :: 0 <= j < |acc'| ==> acc'[j] == (acc' + rest[1..])[j];
  }

  lemma {:induction false} ExtendEachSucceeds(f: Coercion, schema: Option<Schema>, acc: Object, rest: seq<(string, Value)>)
    requires DistinctKeys(acc + rest)
    ensures ExtendEach(f, schema, acc, rest).Ok? <==> forall i :: 0 <= i < |rest| ==> Step(f, schema, rest[i]).Ok?
    decreases |rest|
  {
    if rest != [] && Step(f, schema, rest[0]).Ok? {
      var p := Step(f, schema, rest[0]).value;
      ExtendFacts(acc, rest, p);
      ExtendEachSucceeds(f, schema, acc + [(rest[0].0, p)], rest[1..]);
      assert forall i :: 1 <= i < |rest| ==> rest[i] == rest[1..][i - 1];
    }
  }

  lemma {:induction false} ExtendEachResult(f: Coercion, schema: Option<Schema>, acc: Object, rest: seq<(string, Value)>)
    requires DistinctKeys(acc + rest)
    requires ExtendEach(f, schema, acc, rest).Ok?
    ensures var r := ExtendEach(f, schema, acc, rest).value;
            && |r| == |acc| + |rest|
            && (forall i :: 0 <= i < |acc| ==> r[i] == acc[i])
            && (forall i :: 0 <= i < |rest| ==> r[|acc| + i].0 == rest[i].0 && Step(f, schema, rest[i]) == Ok(r[|acc| + i].1))
    decreases |rest|
  {
    if rest != [] {
      var p := Step(f, schema, rest[0]).value;
      ExtendFacts(acc, rest, p);
      var acc' := acc + [(rest[0].0, p)];
      ExtendEachResult(f, schema, acc', rest[1..]);
      var r := ExtendEach(f, schema, acc, rest).value;
      assert r == ExtendEach(f, schema, acc', rest[1..]).value;
      assert r[|acc|] == acc'[|acc|];
      forall i | 1 <= i < |rest|
        ensures r[|acc| + i].0 == rest[i].0 && Step(f, schema, rest[i]) == Ok(r[|acc| + i].1)
      {
        assert rest[i] == rest[1..][i - 1];
        assert |acc| + i == |acc'| + (i - 1);
      }
    }
  }

  lemma {:induction false} ExtendEachFailure(f: Coercion, schema: Option<Schema>, acc: Object, rest: seq<(string, Value)>)
    requires DistinctKeys(acc + rest)
    requires ExtendEach(f, schema, acc, rest).Err?
    ensures FirstFailure(f, schema, rest, ExtendEach(f, schema, acc, rest).error)
    decreases |rest|
  {
    var e := ExtendEach(f, schema, acc, rest).error;
    if Step(f, schema, rest[0]).Err? {
      assert Step(f, schema, rest[0]) == Err(e);
    } else {
      var p := Step(f, schema, rest[0]).value;
      ExtendFacts(acc, rest, p);
      ExtendEachFailure(f, schema, acc + [(rest[0].0, p)], rest[1..]);
      var i :| 0 <= i < |rest[1..]| && Step(f, schema, rest[1..][i]) == Err(e)
               && forall j :: 0 <= j < i ==> Step(f, schema, rest[1..][j]).Ok?;
      assert Step(f, schema, rest[i + 1]) == Err(e);
      assert forall j :: 1 <= j < i + 1 ==> rest[j] == rest[1..][j - 1];
    }
  }

  /** `_.forIn` over `o`, converting each field through `f` under `schema`
      and collecting the results into a fresh object. */
  function ForIn(f: Coercion, schema: Option<Schema>, o: Object): (r: Result<Object, Error>)
    ensures r.Ok? <==> forall i :: 0 <= i < |o| ==> Step(f, schema, o[i]).Ok?
    ensures r.Ok? ==> Fieldwise(f, schema, o, r.value) && Keys(r.value) == Keys(o)
    ensures r.Err? ==> FirstFailure(f, schema, o, r.error)
  {
    assert [] + o == o;
    var r := ExtendEach(f, schema, [], o);
    ExtendEachSucceeds(f, schema, [], o);
    if r.Ok? then
      ExtendEachResult(f, schema, [], o);
      r
    else
      ExtendEachFailure(f, schema, [], o);
      r
  }
}

=== FILE: schemas.dfy ===
/** The schema registry of `EventTypes`: two fixed, ordered tables from
    field names to primitive-kind names, and the table that selects one of
    them by event name. */
module Schemas {
  import opened Wrappers
  import opened JsValues

  /* Primitive-kind names a schema may mention. */
  const Address: string := "Address"
  const String: string := "String"
  const Bytes32: string := "Bytes32"
  const BigNumber: string := "BigNumber"
  const UInt: string := "UInt"

  /* Event names. */
  const EsEvent: string := "EsEvent"
  const EsEventProperty: string := "EsEventProperty"

  /** An object mapping event names to schemas. */
  type Registry = r: seq<(string, Schema)> | DistinctKeys(r) witness []

  /** The fields of an event property, in declaration order. */
  const EsEventPropertySchema: Schema := [
    ("EventIndex", BigNumber),
    ("EventPropertyIndex", BigNumber),
    ("Name", Bytes32),
    ("ValueType", Bytes32),
    ("AddressValue", String),
    ("UIntValue", BigNumber),
    ("Bytes32Value", Bytes32)
  ]

  /** The fields of an event, in declaration order. */
  const EsEventSchema: Schema := [
    ("Id", BigNumber),
    ("Type", Bytes32),
    ("Version", Bytes32),
    ("ValueType", Bytes32),
    ("AddressValue", String),
    ("UIntValue", BigNumber),
    ("Bytes32Value", Bytes32),
    ("TxOrigin", String),
    ("Created", BigNumber),
    ("PropertyCount", BigNumber)
  ]

  const TruffleEventSchema: Registry := [
    (EsEvent, EsEventSchema),
    (EsEventProperty, EsEventPropertySchema)
  ]

  /** `registry[eventName]`: undefined for a name it does not list. */
  function SchemaFor(registry: Registry, eventName: string): Option<Schema>
  {
    Lookup(registry, eventName)
  }

  /** The two registered event names select their tables; every other name selects nothing. */
  lemma TruffleEventSchemaEntries(eventName: string)
    ensures SchemaFor(TruffleEventSchema, EsEvent) == Some(EsEventSchema)
    ensures SchemaFor(TruffleEventSchema, EsEventProperty) == Some(EsEventPropertySchema)
    ensures eventName != EsEvent && eventName != EsEventProperty
            ==> SchemaFor(TruffleEventSchema, eventName) == None
  {
    LookupAt(TruffleEventSchema, 1);
  }

  /** Field names in declaration order: the order `_.keys` returns. */
  lemma SchemaKeyOrder()
    ensures Keys(EsEventSchema) == ["Id", "Type", "Version", "ValueType", "AddressValue",
                                    "UIntValue", "Bytes32Value", "TxOrigin", "Created", "PropertyCount"]
    ensures Keys(EsEventPropertySchema) == ["EventIndex", "EventPropertyIndex", "Name", "ValueType",
                                            "AddressValue", "UIntValue", "Bytes32Value"]
  {
  }
}

=== FILE: transactions.dfy ===
/** Decoding the logs of a transaction receipt into plain event objects,
    with a narrower kind switch than `EventTypes`. The registry the logs are
    read against is a parameter: the module it comes from is not part of this
    model. */
module Transactions {
  import opened Wrappers
  import opened JsValues
  import opened Schemas
  import EventTypes

  /** One log entry: the event's name and its arguments. */
  datatype Log = Log(event: string, args: Object)

  /** A transaction receipt; only its logs are read. */
  datatype Transaction = Transaction(logs: seq<Log>)

  /** The kinds `getPropFromSchema` has a case for. */
  const LogKinds: set<string> := {String, Address, BigNumber}

  /** `getPropFromSchema(propType, value)`; `None` is an undefined kind. */
  function CoerceLog(rt: Runtime, kind: Option<string>, v: Value): (r: Result<Value, Error>)
    ensures r.Ok? <==> (kind.Some? && kind.value in LogKinds
                       && if kind.value == BigNumber then v.BigNum? else v != Undefined)
    ensures kind.None? || kind.value !in LogKinds ==> r == Err(UnknownKind(kind))
    ensures r.Ok? ==> r.value.Str? || r.value.Num?
    ensures kind == Some(BigNumber) && v.BigNum? ==> r == Ok(Num(v.n))
    ensures (kind == Some(Address) || kind == Some(String)) && v.Str? ==> r == Ok(v)
    ensures ((kind == Some(Address) || kind == Some(String)) && (v.Num? || v.BigNum?))
              ==> r == Ok(Str(rt.numberText(v.n)))
    ensures ((kind == Some(Address) || kind == Some(String)) && v == Undefined)
              ==> r == Err(ReadOfUndefined("toString"))
    ensures (kind == Some(BigNumber) && !v.BigNum?)
              ==> r == Err(if v == Undefined then ReadOfUndefined("toNumber") else NotAFunction("toNumber"))
  {
    match kind
    case None => Err(UnknownKind(kind))
    case Some(k) =>
      if k == String then CallToString(rt, v)
      else if k == Address then CallToString(rt, v)
      else if k == BigNumber then CallToNumber(v)
      else Err(UnknownKind(kind))
  }

  /** String and Address convert alike; Bytes32 and UInt, which the switch
      of `EventTypes` handles, are rejected here whatever the value. */
  lemma CoerceLogCases(rt: Runtime, v: Value)
    ensures CoerceLog(rt, Some(String), v) == CoerceLog(rt, Some(Address), v)
    ensures CoerceLog(rt, Some(Bytes32), v) == Err(UnknownKind(Some(Bytes32)))
    ensures CoerceLog(rt, Some(UInt), v) == Err(UnknownKind(Some(UInt)))
  {
  }

  /** Where the narrow switch succeeds, the switch of `EventTypes` gives the same value. */
  lemma CoerceLogAgrees(rt: Runtime, kind: Option<string>, v: Value)
    requires CoerceLog(rt, kind, v).Ok?
    ensures EventTypes.Coerce(rt, kind, v) == CoerceLog(rt, kind, v)
  {
  }

  function LogCoercion(rt: Runtime): Coercion
  {
    (kind, v) => CoerceLog(rt, kind, v)
  }

  /** `eventFromLog(log)`: the log's arguments converted by the schema its
      event name selects. */
  function EventFromLog(rt: Runtime, registry: Registry, log: Log): (r: Result<Object, Error>)
    ensures r.Ok? ==> Keys(r.value) == Keys(log.args)
    ensures r.Err? ==> FirstFailure(LogCoercion(rt), SchemaFor(registry, log.event), log.args, r.error)
    ensures SchemaFor(registry, log.event).None? ==>
              r == if log.args == [] then Ok([]) else Err(ReadOfUndefined(log.args[0].0))
    ensures var schema := SchemaFor(registry, log.event);
            schema.Some? && r.Ok? ==>
              forall i :: 0 <= i < |log.args| ==>
                CoerceLog(rt, Lookup(schema.value, log.args[i].0), log.args[i].1) == Ok(r.value[i].1)
    ensures var schema := SchemaFor(registry, log.event);
            schema.Some? ==>
              (r.Ok? <==> forall i :: 0 <= i < |log.args| ==>
                            CoerceLog(rt, Lookup(schema.value, log.args[i].0), log.args[i].1).Ok?)
    ensures var schema := SchemaFor(registry, log.event);
            (schema.Some? && exists i :: 0 <= i < |log.args|
                                        && (Lookup(schema.value, log.args[i].0).None?
                                            || Lookup(schema.value, log.args[i].0).value !in LogKinds))
              ==> r.Err?
  {
    ForIn(LogCoercion(rt), SchemaFor(registry, log.event), log.args)
  }

  /** A log the narrow decoder accepts decodes to the same object under the
      switch of `EventTypes`. */
  lemma EventFromLogAgrees(rt: Runtime, registry: Registry, log: Log)
    requires EventFromLog(rt, registry, log).Ok?
    ensures ForIn(EventTypes.TruffleCoercion(rt), SchemaFor(registry, log.event), log.args)
            == EventFromLog(rt, registry, log)
  {
    var schema := SchemaFor(registry, log.event);
    var r := EventFromLog(rt, registry, log).value;
    var wide := EventTypes.TruffleCoercion(rt);
    var narrow := LogCoercion(rt);
    forall i | 0 <= i < |log.args|
      ensures Step(wide, schema, log.args[i]) == Step(narrow, schema, log.args[i])
    {
      var kind := KindOf(schema, log.args[i].0).value;
      CoerceLogAgrees(rt, kind, log.args[i].1);
    }
    var w := ForIn(wide, schema, log.args).value;
    assert |w| == |r|;
    forall i | 0 <= i < |r|
      ensures w[i] == r[i]
    {
      assert Step(wide, schema, log.args[i]) == Ok(w[i].1);
      assert Step(narrow, schema, log.args[i]) == Ok(r[i].1);
    }
    assert w == r;
  }

  /** Against the registry of `EventTypes`, a log of an event with a Bytes32
      field among its arguments cannot be decoded by the narrow switch. */
  lemma EventFromLogRejectsBytes32(rt: Runtime, log: Log, i: nat)
    requires log.event == EsEvent
    requires i < |log.args| && log.args[i].0 == "Type"
    ensures EventFromLog(rt, TruffleEventSchema, log).Err?
  {
    TruffleEventSchemaEntries(log.event);
    LookupAt(EsEventSchema, 1);
    assert Lookup(EsEventSchema, log.args[i].0) == Some(Bytes32);
  }

  /** `eventsFromTransaction(tx)`: `tx.logs.map(eventFromLog)`, which throws
      the first failing log's error. */
  method EventsFromTransaction(rt: Runtime, registry: Registry, tx: Transaction)
    returns (r: Result<seq<Object>, Error>)
    ensures r.Ok? <==> forall i :: 0 <= i < |tx.logs| ==> EventFromLog(rt, registry, tx.logs[i]).Ok?
    ensures r.Ok? ==> |r.value| == |tx.logs|
                      && forall i :: 0 <= i < |tx.logs| ==> EventFromLog(rt, registry, tx.logs[i]) == Ok(r.value[i])
    ensures r.Err? ==> exists i :: 0 <= i < |tx.logs| && EventFromLog(rt, registry, tx.logs[i]) == Err(r.error)
                                 && forall j :: 0 <= j < i ==> EventFromLog(rt, registry, tx.logs[j]).Ok?
  {
    var events: seq<Object> := [];
    var n := 0;
    while n < |tx.logs|
      invariant n <= |tx.logs|
      invariant |events| == n
      invariant forall i :: 0 <= i < n ==> EventFromLog(rt, registry, tx.logs[i]) == Ok(events[i])
    {
      var e := EventFromLog(rt, registry, tx.logs[n]);
      if e.Err? {
        return Err(e.error);
      }
      events := events + [e.value];
      n := n + 1;
    }
    return Ok(events);
  }
}

=== FILE: wrappers.dfy ===
/** Failure-compatible wrappers: `Option` for a value that may be missing,
    `Result` for a computation that may throw. Both work with `:-`. */
module Wrappers {

  datatype Option<+T> = None | Some(value: T)

  datatype Result<+T, +E> = Ok(value: T) | Err(error: E) {

    predicate IsFailure() {
      Err?
    }

    function PropagateFailure<U>(): Result<U, E>
      requires Err?
    {
      Err(error)
    }

    function Extract(): T
      requires Ok?
    {
      value
    }
  }
}
